=== FILE: README.md ===
# Nuitka subscript helpers and identifier naming, modelled in Dafny

This project models two pieces of the Nuitka Python compiler and proves properties of them.

1. **The subscript helpers of the C++ runtime.** `LOOKUP_SUBSCRIPT_CONST`, `_LOOKUP_SUBSCRIPT`, `_SET_SUBSCRIPT` and `_DEL_SUBSCRIPT` run whenever compiled code evaluates `x[i]`, `x[i] = v` or `del x[i]`.
   - A type object is reduced to the capability slots the helpers test: `mp_subscript`, `mp_ass_subscript`, `tp_as_sequence`, `sq_item`, `sq_ass_item`, and whether `__index__` exists (`PyIndex_Check`).
   - The exact-type checks `PyList_CheckExact` and `PyString_CheckExact` are an `Exactness` tag. The tag carries the list's item array or the string's bytes.
   - Every CPython function the helpers call is a field of a `Runtime` record. That covers `mp_subscript`, `PySequence_GetItem`, `CONVERT_TO_INDEX`, `BUILTIN_CHR`, `mp_ass_subscript`, `PyNumber_AsSsize_t`, `SEQUENCE_SETITEM` and `PyObject_DelItem`. The properties hold for any such functions that follow CPython's calling conventions, which subset types encode: a NULL result or a `-1` status comes with a pending exception.
   - A helper finishes in one of three ways:
     - `Ok`: it returns normally.
     - `Thrown`: it throws `_PythonException` carrying the pending exception.
     - `ReturnedNull`: it returns NULL with an exception pending. The "unsubscriptable" branches do this with a `TypeError`, because they `return PyErr_Format(...)`, so the `throw` after it is never reached. The Python 2 `str` fast path does it too when `BUILTIN_CHR` returns NULL, because it returns that result without checking it. The model keeps both behaviours.
   - The Python 2 `str` fast path is compiled only when `PYTHON_VERSION < 300`. Here the version is a parameter of `LookupSubscriptConst`.
   - `Py_ssize_t` is the 64-bit signed integer.
2. **Identifier and constant naming in the code generator** (`src/Identifiers.py`).
   - The `Identifier` class and its four variable subclasses form one datatype. Their `getCode*` methods are pure functions. `getCodeExportRef` returns the text together with the identifier's state after the call, because it zeroes the reference count.
   - The subclasses never run the base constructor, so they have no `ref_count` attribute. The base `getCodeDropRef` therefore fails for them with `AttributeError`, and `setRefCount` fails with `AssertionError`. `ClosureVariableIdentifier` overrides `getCodeDropRef` and does not fail.
   - `_namifyString` and `namifyConstant` produce C identifier fragments. The MD5 `digest` is a parameter, a function returning 32 lower-case hex digits.
   - The pattern `^([a-z]|[A-Z]|[0-9]|_){1,40}$` is modelled with Python's `$`, which also matches before a final newline. The lemma `PatternWithoutNewline` proves that together with the explicit `"\n" not in string` test, the condition means exactly "1 to 40 letters, digits or underscores".

A read of a type with neither slot returns NULL with a `TypeError` pending instead of throwing. A sequence read with a non-index key throws only when the type has `sq_item`; otherwise it returns NULL as unsubscriptable.

## Model

| member | source | states |
|---|---|---|
| CPython.WrapSsize | nuitka/build/include/nuitka/helper/subscripts.hpp:50-52 | `Py_ssize_t` arithmetic: the result is congruent to the input modulo 2^64, and in-range values are unchanged |
| CPython.IncRef | nuitka/build/include/nuitka/helper/subscripts.hpp:69 | `INCREASE_REFCOUNT` adds exactly one reference to the element and leaves every other object's count alone |
| Subscripts.NormalizeIndex | nuitka/build/include/nuitka/helper/subscripts.hpp:50-67 | an index is accepted iff `-N <= i < N`; the position is in `[0, N)`, `i` for `i >= 0` and `i + N` otherwise |
| Subscripts.NormalizeIndexIdempotent | nuitka/build/include/nuitka/helper/subscripts.hpp:50-67 | normalising an already normalised position returns it unchanged |
| Subscripts.NormalizeIndexAsWrittenAgrees | nuitka/build/include/nuitka/helper/subscripts.hpp:50-67 | for every index except the most negative `Py_ssize_t`, the C range check and addition accept the same indices and give the same position as the intended normalisation |
| Subscripts.NormalizeIndexAsWrittenEscapes | nuitka/build/include/nuitka/helper/subscripts.hpp:50-58 | for the most negative `Py_ssize_t`, `-int_subscript` wraps: the C check accepts the index for any container size and yields a negative position, while the intended normalisation rejects it |
| Subscripts.NormalizeIndexAsWritten | nuitka/build/include/nuitka/helper/subscripts.hpp:50-58 | the literal C range check never rejects an in-range index and then yields the intended position; it never yields a position at or past the end, and a non-negative index is used as is |
| Subscripts.PassUnchecked | nuitka/build/include/nuitka/helper/subscripts.hpp:96-97 | the `str` fast path hands `BUILTIN_CHR`'s result straight back: an object is returned, and a NULL becomes a NULL return with the same pending exception; nothing is thrown |
| Subscripts.ThrowIfNull | nuitka/build/include/nuitka/helper/subscripts.hpp:115-120 | a NULL collaborator result always throws the collaborator's own pending exception; a non-NULL result is returned unchanged; never a NULL return |
| Subscripts.ThrowIfMinusOne | nuitka/build/include/nuitka/helper/subscripts.hpp:184-187 | a status of -1 throws the pending exception; any other status returns normally |
| Subscripts.LookupSubscriptConst | nuitka/build/include/nuitka/helper/subscripts.hpp:34-121 | exact list with `mp_subscript`: an in-range index yields the element at the normalised position and adds one reference to it; out of range throws `IndexError` "list index out of range". Python 2 exact str: the same rule with "string index out of range", yielding `BUILTIN_CHR` of the byte, and a NULL from `BUILTIN_CHR` becomes a NULL return of the helper rather than a throw. Any other mapping type gets the original key object, a sequence-only type gets the integer, and a type with neither gets a NULL return with "'<type>' object is unsubscriptable". A NULL return happens exactly in those two cases. Reference counts change only on the list fast path |
| Subscripts.LookupSubscript | nuitka/build/include/nuitka/helper/subscripts.hpp:125-168 | the mapping slot wins. For a sequence, an index-like key is converted and passed to `PySequence_GetItem`, and a conversion failure throws. A non-index key on a type with `sq_item` throws "sequence index must be integer, not '<key type>'". NULL is returned exactly when there is no mapping slot and no usable sequence path |
| Subscripts.SetSubscript | nuitka/build/include/nuitka/helper/subscripts.hpp:172-234 | `mp_ass_subscript` wins and throws iff it returns -1. For a sequence with an index-like key, the key goes through `PyNumber_AsSsize_t` with `IndexError` as the overflow exception. A -1 result throws only if an exception is pending; otherwise `SEQUENCE_SETITEM` runs, and its failure throws its own exception. A non-index key with `sq_ass_item` gives "sequence index must be integer"; every other case gives "'<type>' object does not support item assignment". It never returns NULL |
| Subscripts.DelSubscript | nuitka/build/include/nuitka/helper/subscripts.hpp:238-249 | `PyObject_DelItem` runs whatever the capabilities; the helper throws its pending exception iff the status is -1 and never returns NULL |
| Subscripts.ConstLookupAgreesWithGeneric | nuitka/build/include/nuitka/helper/subscripts.hpp:100-113 | off the fast paths, the constant-key read equals the generic read with the key object, with reference counts unchanged; for sequence-only types this needs the caller's integer to be what the key converts to |
| Subscripts.ConstLookupKeyChoice | nuitka/build/include/nuitka/helper/subscripts.hpp:100-108 | a non-fast-path mapping read does not depend on the integer key; a read on a type without `mp_subscript` does not depend on the key object |
| Subscripts.ListFastPathBypassesRuntime | nuitka/build/include/nuitka/helper/subscripts.hpp:46-69 | the exact-list read gives the same result under every runtime, so it consults no capability slot or collaborator |
| Subscripts.NonIndexKeyRefusedAlike | nuitka/build/include/nuitka/helper/subscripts.hpp:145-149 | for a sequence-only type with both item slots, the read and the write both throw the same "sequence index must be integer" `TypeError` for a non-index key |
| Subscripts.ListScenario | nuitka/build/include/nuitka/helper/subscripts.hpp:46-69 | on `[10, 20, 30]`, index -1 yields 30 and index 3 throws `IndexError` with reference counts unchanged |
| Identifiers.GetRefCount | src/Identifiers.py:32-33 | only a base identifier can report owned references; the variable subclasses report 0 |
| Identifiers.GetCode | src/Identifiers.py:78-140 | the exact text of every form: the fixed prefix directly followed by the Python name, with `_python_var_` for plain locals (not `from_context`) and loop variables, `_python_context->python_var_` for context locals, `_python_tmp_` for temporaries, and `<context>python_closure_` or, for an empty context, `_python_closure_` for closure variables |
| Identifiers.GetCodeObject | src/Identifiers.py:42-43 | a base identifier's object code is its code; a variable's is its code followed by `.asObject()` |
| Identifiers.GetCodeExportRef | src/Identifiers.py:45-51 | an owning identifier hands over its bare code and owns nothing afterwards; otherwise it yields `INCREASE_REFCOUNT( <object code> )` and is unchanged |
| Identifiers.GetCodeTemporaryRef | src/Identifiers.py:53-57 | the object code is used bare exactly when the identifier owns no reference; an owned reference is never used bare, its code is recoverable from inside the `PyObjectTemporary( … ).asObject()` wrapper, and a variable or owned value always ends in `.asObject()` |
| Identifiers.GetCodeDropRef | src/Identifiers.py:59-63 | fails with `AttributeError` exactly for local, loop and temporary variables. A closure variable always gets `DECREASE_REFCOUNT( … )`. A base identifier gets its bare code iff its count is 0 |
| Identifiers.SetRefCount | src/Identifiers.py:35-37 | succeeds exactly for base identifiers, giving the same base identifier with only the count replaced; the variable subclasses fail the attribute assertion |
| Identifiers.ExportRefHandsOutOnce | src/Identifiers.py:45-51 | a second export always yields `INCREASE_REFCOUNT( … )` and leaves the state unchanged |
| Identifiers.ExportRefRepeatedly | src/Identifiers.py:45-51 | across any number of exports, ownership is handed over at most once, only on the first call and only if the identifier owned references; every other export is an `INCREASE_REFCOUNT` |
| Identifiers.OwnedReferenceReleasedOnce | src/Identifiers.py:45-63 | an owning base identifier dropped before export is wrapped in `DECREASE_REFCOUNT`; after an export, dropping or borrowing it uses the bare code |
| Identifiers.LocalCodeFormsDiffer | src/Identifiers.py:78-82 | a plain local's code never equals a context local's code |
| Identifiers.VariableCodesInjective | src/Identifiers.py:78-120 | two local, loop or temporary identifiers of the same kind with the same code name the same variable |
| Identifiers.ClosureCodesInjective | src/Identifiers.py:136-140 | for one context prefix, a closure variable's code determines its name |
| Identifiers.TempNeverShadowsLocal | src/Identifiers.py:100-120 | a temporary's code never equals a local or loop variable's code |
| ConstantNames.PatternMatches | src/Identifiers.py:157 | the `re.match` succeeds on every string of 1 to 40 letters, digits and `_`; whatever it accepts has at most 41 characters, all word characters except possibly a final newline |
| ConstantNames.PatternWithoutNewline | src/Identifiers.py:157-162 | the pattern match together with the absence of `\n` holds iff the string has 1 to 40 characters, all letters, digits or `_` |
| ConstantNames.NamifyString | src/Identifiers.py:159-169 | the name is non-empty and consists only of letters, digits and `_` |
| ConstantNames.NamifyStringBranches | src/Identifiers.py:159-169 | `""` gives `empty`; a short word gives `plain_<s>`; otherwise `<word>` gives `angle_<word>`; anything else gives `digest_<md5>` |
| ConstantNames.NamifyStringInjective | src/Identifiers.py:159-169 | a name not produced by digesting determines the string it came from |
| ConstantNames.Decimal | src/Identifiers.py:184 | `%d` of a natural number is a non-empty digit string with a leading zero only for 0 |
| ConstantNames.DecimalRoundTrip | src/Identifiers.py:184 | reading the decimal text back gives the number |
| ConstantNames.DecimalInjective | src/Identifiers.py:184-186 | distinct numbers have distinct decimal texts |
| ConstantNames.NamifyConstant | src/Identifiers.py:179-209 | int, long, bool and str constants get a non-empty name of letters, digits and `_`; a value of any type outside the seven `namifyConstant` handles (int, long, bool, str, unicode, float, complex) raises `ExceptionCannotNamify` carrying the constant |
| ConstantNames.SignedName | src/Identifiers.py:180-193 | an int or long constant's name starts with `<kind>_`, consists of word characters when the kind does, shows the sign in the next character (`0`, `p` or `n`), and after `pos_` or `neg_` holds decimal digits whose value is the magnitude |
| ConstantNames.SignedNameInjective | src/Identifiers.py:180-193 | `<kind>_0`, `<kind>_pos_<n>` and `<kind>_neg_<abs(n)>` determine the integer |
| ConstantNames.NamifyConstantInjective | src/Identifiers.py:179-197 | two int, long, bool or str constants with the same name are equal, unless a string is named by its digest; in particular distinct ints get distinct names |
| ConstantNames.NamifyConstantExamples | src/Identifiers.py:211-213 | `""` is named `str_empty` and `"<module>"` is named `str_angle_module` |

## Findings

| source | as written | input that shows it | evidently intended | confidence | as-written member | corrected member |
|---|---|---|---|---|---|---|
| nuitka/build/include/nuitka/helper/subscripts.hpp:50-58 | the range check for a negative index computes `-int_subscript` in `Py_ssize_t`; the string fast path at lines 77-85 does the same | `int_subscript` = -2^63 on an exact list of size N: the negation wraps to -2^63, the check `-2^63 > N` is false, and `ob_item[-2^63 + N]` is read outside the array | throw `IndexError` "list index out of range" ("string index out of range" for `str`) | medium, not executed; signed overflow is undefined in C, and this assumes it wraps | Subscripts.NormalizeIndexAsWrittenEscapes | Subscripts.NormalizeIndex |

The entry points use the corrected normalisation `NormalizeIndex`. `NormalizeIndexAsWritten` is the literal C arithmetic. The lemma `NormalizeIndexAsWrittenAgrees` proves that the two differ only at -2^63.

## Left out

- `nuitka/plugins/standard/GeventPlugin.py` is not part of this model. It is plugin glue around options, the operating system and logging, and has no invariant of its own.
- The CPython functions the helpers call are not modelled. Their behaviour is whatever the `Runtime` record supplies, so round trips such as `Set` then `Get` returning the value, and `Del` then `Get` failing, cannot be stated. A type error from `PyObject_DelItem` for a target that cannot delete also belongs to CPython.
- `EVAL_ORDERED_2` and `EVAL_ORDERED_3` are not modelled. Operand evaluation order is fixed by the caller before a helper runs.
- `assertObject` is not modelled. A handle (`Ref`) can never be NULL.
- Subscripts.LookupSubscriptConst: reference counts are tracked only for the increment of the list fast path. The references that `BUILTIN_CHR` and the collaborators return are owned by their own contracts, which are not modelled.
- `Py_ssize_t` is modelled as 64-bit. On a 32-bit build the same wrap happens at -2^31.
- The `digest` function (MD5) is a parameter. Only its output format is assumed: 32 lower-case hex digits.
- `namifyConstant` for `unicode`, `float` and `complex` is not modelled. The unicode branch depends on Python 2's implicit ASCII encoding in `isAscii`, and the float and complex branches depend on `repr` and `str` formatting of floating point. `ConstantNames.Constant` has no variants for these types.
- The `__repr__` methods are not modelled, because they only produce debugging text.
- Names are `string` fields, so non-`str` names are not modelled. `LocalVariableIdentifier` and `LocalLoopVariableIdentifier` assert a `str` name in their constructors. `TempVariableIdentifier` checks nothing, and `ClosureVariableIdentifier` checks only `from_context`, so a non-`str` temporary or closure name would raise `TypeError` later in `getCode`; that case is left out.

=== FILE: constant_names.dfy ===
/**
 Naming of constants in generated C++ code: every constant the compiled
 module uses gets a global whose name is derived from its value and type.
 Names consist of ASCII letters, digits and `_` only; short identifier-like
 strings stay readable, anything else is replaced by its MD5 hex digest.
 */
module ConstantNames {
  import opened Wrappers

  // ---------------------------------------------------------------------
  // Characters and the "needs no digest" pattern
  // ---------------------------------------------------------------------

  /** One alternative of the pattern `([a-z]|[A-Z]|[0-9]|_)`. */
  predicate IsWordChar(c: char) {
    ('a' <= c <= 'z') || ('A' <= c <= 'Z') || ('0' <= c <= '9') || c == '_'
  }

  predicate AllWordChars(s: string) {
    forall i :: 0 <= i < |s| ==> IsWordChar(s[i])
  }

  /** What may stay readable: 1 to 40 characters, each a letter, digit or `_`. */
  predicate IsShortWord(s: string) {
    1 <= |s| <= 40 && AllWordChars(s)
  }

  /**
   Whether `re.match` of `^([a-z]|[A-Z]|[0-9]|_){1,40}$` succeeds: without
   MULTILINE, `$` also matches just before a final newline, so one trailing
   newline is tolerated.
   */
  function PatternMatches(s: string): (b: bool)
    ensures IsShortWord(s) ==> b
    ensures b ==> 1 <= |s| <= 41 && AllWordChars(s[..|s| - 1])
    ensures b ==> IsWordChar(s[|s| - 1]) || s[|s| - 1] == '\n'
  {
    || IsShortWord(s)
    || (|s| >= 2 && s[|s| - 1] == '\n' && IsShortWord(s[..|s| - 1]))
  }

  /** The explicit newline test closes the gap left by `$`. */
  lemma PatternWithoutNewline(s: string)
    ensures PatternMatches(s) && '\n' !in s <==> IsShortWord(s)
  {
    if IsShortWord(s) {
      assert !IsWordChar('\n');
    }
    if |s| >= 2 && s[|s| - 1] == '\n' {
      assert s[|s| - 1] in s;
    }
  }

  predicate IsLowerHexChar(c: char) {
    ('0' <= c <= '9') || ('a' <= c <= 'f')
  }

  /** What `hashlib.md5(value).hexdigest()` returns: 32 lower-case hex digits. */
  type HexDigest = s: string | |s| == 32 && forall i :: 0 <= i < |s| ==> IsLowerHexChar(s[i])
    witness "00000000000000000000000000000000"

  // ---------------------------------------------------------------------
  // _namifyString
  // ---------------------------------------------------------------------

  /** `<inner>` with a readable `inner`, such as `<module>`. */
  predicate IsAngleWord(s: string) {
    |s| > 2 && s[0] == '<' && s[|s| - 1] == '>' && IsShortWord(s[1..|s| - 1])
  }

  /** The strings `_namifyString` replaces by their digest. */
  predicate IsDigested(s: string) {
    s != "" && !IsShortWord(s) && !IsAngleWord(s)
  }

  /** `_namifyString`: `digest` stands for the MD5 hex digest of a string. */
  function NamifyString(s: string, digest: string -> HexDigest): (r: string)
    ensures AllWordChars(r)
    ensures |r| > 0
  {
    if s == "" then
      "empty"
    else if PatternMatches(s) && '\n' !in s then
      PatternWithoutNewline(s);
      "plain_" + s
    else if |s| > 2 && s[0] == '<' && s[|s| - 1] == '>'
            && PatternMatches(s[1..|s| - 1]) && '\n' !in s then
      PatternWithoutNewline(s[1..|s| - 1]);
      "angle_" + s[1..|s| - 1]
    else
      var d := digest(s);
      assert forall i :: 0 <= i < |d| ==> IsLowerHexChar(d[i]);
      "digest_" + d
  }

  /** The four branches of `_namifyString`, the first applicable one winning. */
  lemma {:induction false} NamifyStringBranches(s: string, digest: string -> HexDigest)
    ensures s == "" ==> NamifyString(s, digest) == "empty"
    ensures IsShortWord(s) ==> NamifyString(s, digest) == "plain_" + s
    ensures !IsShortWord(s) && IsAngleWord(s) ==> NamifyString(s, digest) == "angle_" + s[1..|s| - 1]
    ensures IsDigested(s) ==> NamifyString(s, digest) == "digest_" + digest(s)
  {
    PatternWithoutNewline(s);
    if |s| > 2 {
      var inner := s[1..|s| - 1];
      PatternWithoutNewline(inner);
      if s[0] == '<' && s[|s| - 1] == '>' {
        assert s == [s[0]] + inner + [s[|s| - 1]];
        assert '\n' in s <==> '\n' in inner;
      }
    }
  }

  /** Names of strings that are not digested identify the string. */
  lemma {:induction false} NamifyStringInjective(s1: string, s2: string, digest: string -> HexDigest)
    requires !IsDigested(s1)
    requires NamifyString(s1, digest) == NamifyString(s2, digest)
    ensures s1 == s2
  {
    NamifyStringBranches(s1, digest);
    NamifyStringBranches(s2, digest);
    var n, m := NamifyString(s1, digest), NamifyString(s2, digest);
    assert n[0] == (if s1 == "" then 'e' else if IsShortWord(s1) then 'p' else 'a');
    assert m[0] == (if s2 == "" then 'e' else if IsShortWord(s2) then 'p'
                    else if IsAngleWord(s2) then 'a' else 'd');
    if s1 == "" {
      assert |n| == 5;
    } else if IsShortWord(s1) && IsShortWord(s2) {
      assert s1 == n[6..] == s2;
    } else if IsAngleWord(s1) && !IsShortWord(s1) && IsAngleWord(s2) && !IsShortWord(s2) {
      var inner1, inner2 := s1[1..|s1| - 1], s2[1..|s2| - 1];
      assert inner1 == n[6..] == inner2;
      assert s1 == [s1[0]] + inner1 + [s1[|s1| - 1]];
      assert s2 == [s2[0]] + inner2 + [s2[|s2| - 1]];
    }
  }

  // ---------------------------------------------------------------------
  // Decimal formatting, as `"%d" % n` for n >= 0
  // ---------------------------------------------------------------------

  predicate IsDigitChar(c: char) {
    '0' <= c <= '9'
  }

  function DigitChar(d: nat): (c: char)
    requires d < 10
    ensures IsDigitChar(c)
  {
    "0123456789"[d]
  }

  function DigitValue(c: char): nat
    requires IsDigitChar(c)
  {
    c as int - '0' as int
  }

  /** The decimal representation of `n`, most significant digit first, without leading zeros. */
  function Decimal(n: nat): (r: string)
    ensures |r| >= 1
    ensures forall i :: 0 <= i < |r| ==> IsDigitChar(r[i])
    ensures (r[0] == '0') <==> n == 0
    decreases n
  {
    if n < 10 then [DigitChar(n)] else Decimal(n / 10) + [DigitChar(n % 10)]
  }

  /** The number a string of decimal digits denotes. */
  function DecimalValue(s: string): nat
    requires forall i :: 0 <= i < |s| ==> IsDigitChar(s[i])
  {
    if s == [] then 0 else 10 * DecimalValue(s[..|s| - 1]) + DigitValue(s[|s| - 1])
  }

  lemma {:induction false} DecimalRoundTrip(n: nat)
    ensures DecimalValue(Decimal(n)) == n
    decreases n
  {
    if n >= 10 {
      DecimalRoundTrip(n / 10);
      var r := Decimal(n);
      assert r[..|r| - 1] == Decimal(n / 10);
    }
  }

  lemma DecimalInjective(a: nat, b: nat)
    requires Decimal(a) == Decimal(b)
    ensures a == b
  {
    DecimalRoundTrip(a);
    DecimalRoundTrip(b);
  }

  // ---------------------------------------------------------------------
  // namifyConstant
  // ---------------------------------------------------------------------

  /**
   The constants `namifyConstant` is given, by their exact Python 2 type
   (`True` is a `bool`, not an `int`). `OtherConstant` stands for a value of
   any type outside int, long, bool, str, unicode, float and complex.
   */
  datatype Constant =
    | IntConstant(intValue: int)
    | LongConstant(longValue: int)
    | BoolConstant(boolValue: bool)
    | StrConstant(strValue: string)
    | OtherConstant(typeName: string)

  /** `ExceptionCannotNamify( constant )`. */
  datatype CannotNamify = CannotNamify(constant: Constant)

  /** `<kind>_0`, `<kind>_pos_<n>` or `<kind>_neg_<|n|>`. */
  function SignedName(kind: string, n: int): (r: string)
    ensures |r| > |kind| + 1 && r[..|kind| + 1] == kind + "_"
    ensures AllWordChars(kind) ==> AllWordChars(r)
    // the character after `<kind>_` tells the sign ...
    ensures r[|kind| + 1] == (if n == 0 then '0' else if n > 0 then 'p' else 'n')
    // ... and the digits after `pos_` / `neg_` give back the magnitude
    ensures n != 0 ==>
              && |r| > |kind| + 5
              && (forall i :: |kind| + 5 <= i < |r| ==> IsDigitChar(r[i]))
              && DecimalValue(r[|kind| + 5..]) == (if n > 0 then n else -n)
  {
    if n == 0 then kind + "_0"
    else
      var m: nat := if n > 0 then n else -n;
      DecimalRoundTrip(m);
      var r := kind + (if n > 0 then "_pos_" else "_neg_") + Decimal(m);
      assert r[|kind| + 5..] == Decimal(m);
      r
  }

  /** `namifyConstant` on the types it is modelled for. */
  function NamifyConstant(c: Constant, digest: string -> HexDigest): (r: Result<string, CannotNamify>)
    ensures r.Failure? <==> c.OtherConstant?
    ensures r.Failure? ==> r.error == CannotNamify(c)
    ensures r.Success? ==> |r.value| > 0 && AllWordChars(r.value)
  {
    match c
    case IntConstant(n) => Success(SignedName("int", n))
    case LongConstant(n) => Success(SignedName("long", n))
    case BoolConstant(b) => Success(if b then "bool_True" else "bool_False")
    case StrConstant(s) => Success("str_" + NamifyString(s, digest))
    case OtherConstant(_) => Failure(CannotNamify(c))
  }

  /** The value after `<kind>_` is recoverable from a signed name. */
  lemma {:induction false} SignedNameInjective(kind: string, a: int, b: int)
    requires SignedName(kind, a) == SignedName(kind, b)
    ensures a == b
  {
    var na, nb := SignedName(kind, a), SignedName(kind, b);
    var k := |kind| + 1;
    assert na[k] == (if a == 0 then '0' else if a > 0 then 'p' else 'n');
    assert nb[k] == (if b == 0 then '0' else if b > 0 then 'p' else 'n');
    if a > 0 && b > 0 {
      assert Decimal(a) == na[k + 4..] && Decimal(b) == nb[k + 4..];
      DecimalInjective(a, b);
    } else if a < 0 && b < 0 {
      assert Decimal(-a) == na[k + 4..] && Decimal(-b) == nb[k + 4..];
      DecimalInjective(-a, -b);
    }
  }

  /**
   Two constants of the modelled types that get the same name are the same
   constant, unless one is a string whose name is a digest.
   */
  lemma {:induction false} NamifyConstantInjective(c1: Constant, c2: Constant, digest: string -> HexDigest)
    requires !c1.OtherConstant? && !c2.OtherConstant?
    requires !(c1.StrConstant? && IsDigested(c1.strValue))
    requires NamifyConstant(c1, digest) == NamifyConstant(c2, digest)
    ensures c1 == c2
  {
    var n := NamifyConstant(c1, digest).value;
    var n2 := NamifyConstant(c2, digest).value;
    assert n[0] == (match c1
                    case IntConstant(_) => 'i'
                    case LongConstant(_) => 'l'
                    case BoolConstant(_) => 'b'
                    case StrConstant(_) => 's');
    assert n2[0] == (match c2
                     case IntConstant(_) => 'i'
                     case LongConstant(_) => 'l'
                     case BoolConstant(_) => 'b'
                     case StrConstant(_) => 's');
    match c1
    case IntConstant(a) =>
      SignedNameInjective("int", a, c2.intValue);
    case LongConstant(a) =>
      SignedNameInjective("long", a, c2.longValue);
    case BoolConstant(a) =>
      assert |n| == (if a then 9 else 10);
      assert |n2| == (if c2.boolValue then 9 else 10);
    case StrConstant(s1) =>
      assert NamifyString(s1, digest) == n[4..];
      assert NamifyString(c2.strValue, digest) == n2[4..];
      NamifyStringInjective(s1, c2.strValue, digest);
  }

  /** The two constants the module's self-test names. */
  lemma NamifyConstantExamples(digest: string -> HexDigest)
    ensures NamifyConstant(StrConstant(""), digest) == Success("str_empty")
    ensures NamifyConstant(StrConstant("<module>"), digest) == Success("str_angle_module")
  {
    NamifyStringBranches("", digest);
    NamifyStringBranches("<module>", digest);
    assert !IsShortWord("<module>") by { assert !IsWordChar("<module>"[0]); }
    assert "<module>"[1..7] == "module";
    assert IsShortWord("module");
    assert IsAngleWord("<module>");
    assert NamifyString("", digest) == "empty";
    assert NamifyString("<module>", digest) == "angle_module";
    assert "str_" + "empty" == "str_empty";
    assert "str_" + "angle_module" == "str_angle_module";
  }
}

=== FILE: cpython.dfy ===
/**
 The slice of the CPython object model that the subscript helpers touch.

 Type objects are reduced to the capability slots the helpers test, objects to
 a handle, a type and (for the two exact built-in kinds that have a fast path)
 their internal storage. Every CPython entry point the helpers call is a field
 of `Runtime`: the helpers are proved correct for ANY implementation of them,
 constrained only by the calling conventions CPython documents (a NULL result
 or a -1 status comes with a pending exception).
 */
module CPython {
  import opened Wrappers

  /** Bounds of `Py_ssize_t` on a 64-bit platform. */
  const SSIZE_MIN: int := -0x8000_0000_0000_0000
  const SSIZE_MAX: int := 0x7fff_ffff_ffff_ffff
  const SSIZE_MODULUS: int := 0x1_0000_0000_0000_0000

  type Ssize = i: int | SSIZE_MIN <= i <= SSIZE_MAX

  /** The two's-complement wrap of a mathematical integer into `Py_ssize_t`. */
  function WrapSsize(x: int): (r: Ssize)
    ensures (r - x) % SSIZE_MODULUS == 0
    ensures SSIZE_MIN <= x <= SSIZE_MAX ==> r == x
  {
    (x - SSIZE_MIN) % SSIZE_MODULUS + SSIZE_MIN
  }

  type Byte = b: int | 0 <= b < 256

  /** An object handle (`PyObject *`, never NULL when it reaches a helper). */
  type Ref = nat

  /** The capability slots of a type object that the helpers look at. */
  datatype TypeObject = TypeObject(
    name: string,              // tp_name
    hasMpSubscript: bool,      // tp_as_mapping != NULL && mp_subscript != NULL
    hasMpAssSubscript: bool,   // tp_as_mapping != NULL && mp_ass_subscript != NULL
    hasSequence: bool,         // tp_as_sequence != NULL
    hasSqItem: bool,           // tp_as_sequence->sq_item != NULL
    hasSqAssItem: bool,        // tp_as_sequence->sq_ass_item != NULL
    hasIndex: bool)            // PyIndex_Check: the type implements __index__

  /**
   What an exact-type check reveals about an object: an object whose type is
   exactly `list` exposes its item array, one whose type is exactly (Python 2)
   `str` exposes its bytes; instances of every other type, subclasses of
   `list` and `str` included, are `NotExact`.
   */
  datatype Exactness =
    | ExactList(items: seq<Ref>)
    | ExactStr(bytes: seq<Byte>)
    | NotExact

  datatype Object = Object(ref: Ref, typ: TypeObject, exact: Exactness)

  datatype ExcType = IndexError | TypeError | OtherException(name: string)

  /** The contents of the thread's pending-exception slot. */
  datatype PyError = PyError(excType: ExcType, message: string)

  /** A `PyObject *` result: a new reference, or NULL with an exception set. */
  datatype ObjResult = Returned(obj: Ref) | Null(error: PyError)

  /** An `int` status result together with the pending-exception slot after the call. */
  datatype CallStatus = CallStatus(code: int, pending: Option<PyError>)

  /** CPython's convention: a status of -1 is always accompanied by a pending exception. */
  type Status = s: CallStatus | s.code == -1 ==> s.pending.Some? witness CallStatus(0, None)

  /** The result of `PyNumber_AsSsize_t` and the pending-exception slot after it. */
  datatype SsizeConversion = SsizeConversion(value: Ssize, pending: Option<PyError>)

  /** On failure `PyNumber_AsSsize_t` returns -1; -1 alone does not mean failure. */
  type AsSsizeResult = c: SsizeConversion | c.pending.Some? ==> c.value == -1
    witness SsizeConversion(0, None)

  /** `CONVERT_TO_INDEX` either yields a native index or throws. */
  datatype IndexConversion = Converted(index: Ssize) | ConversionRaised(error: PyError)

  /** The runtime entry points the helpers call, left uninterpreted. */
  datatype Runtime = Runtime(
    mpSubscript: (Object, Object) -> ObjResult,              // type->tp_as_mapping->mp_subscript
    sequenceGetItem: (Object, Ssize) -> ObjResult,           // PySequence_GetItem
    convertToIndex: Object -> IndexConversion,               // CONVERT_TO_INDEX
    builtinChr: Byte -> ObjResult,                           // BUILTIN_CHR
    mpAssSubscript: (Object, Object, Object) -> Status,      // mp_ass_subscript(target, key, value)
    numberAsSsize: (Object, ExcType) -> AsSsizeResult,       // PyNumber_AsSsize_t(key, overflow exc)
    sequenceSetItem: (Object, Ssize, Object) -> Option<PyError>, // SEQUENCE_SETITEM, Some = thrown
    objectDelItem: (Object, Object) -> Status)               // PyObject_DelItem

  /** Reference counts of the live objects; an absent handle counts as zero. */
  type RefCounts = map<Ref, nat>

  function RefCount(rc: RefCounts, r: Ref): nat {
    if r in rc then rc[r] else 0
  }

  /** `Py_INCREF`: one more reference to `r`, every other count unchanged. */
  function IncRef(rc: RefCounts, r: Ref): (rc': RefCounts)
    ensures RefCount(rc', r) == RefCount(rc, r) + 1
    ensures forall o :: o != r ==> RefCount(rc', o) == RefCount(rc, o)
  {
    rc[r := RefCount(rc, r) + 1]
  }
}

=== FILE: identifiers.dfy ===
/**
 The `Identifier` family of the code generator: a C++ expression for a value
 together with the number of references that expression owns.

 The base class stores its code text and reference count. The four variable
 identifiers never run the base constructor: their reference count is a
 constant 0 (their `getRefCount` override) and they have no `ref_count`
 attribute, so the base-class members that read or assign that attribute
 directly fail for them.
 */
module Identifiers {
  import opened Wrappers

  datatype Identifier =
    | Base(code: string, refCount: int)                          // Identifier( code, ref_count )
    | LocalVariable(varName: string, fromContext: bool)          // LocalVariableIdentifier
    | LocalLoopVariable(loopVarName: string)                     // LocalLoopVariableIdentifier
    | TempVariable(tempVarName: string)                          // TempVariableIdentifier
    | ClosureVariable(closureVarName: string, context: string)   // ClosureVariableIdentifier

  /** The Python exceptions the base-class members raise on variable identifiers. */
  datatype PythonError = AttributeError(attribute: string) | AssertionError

  const AS_OBJECT: string := ".asObject()"

  /** The fixed parts of the variable identifiers' code text. */
  const VAR_PREFIX: string := "_python_var_"
  const CONTEXT_VAR_PREFIX: string := "_python_context->python_var_"
  const TMP_PREFIX: string := "_python_tmp_"
  const CLOSURE_INFIX: string := "python_closure_"
  const CLOSURE_PREFIX: string := "_python_closure_"

  /** The two halves of the `PyObjectTemporary( … ).asObject()` wrapper. */
  const TEMPORARY_OPEN: string := "PyObjectTemporary( "
  const TEMPORARY_CLOSE: string := " ).asObject()"

  function IncreaseRefcount(expr: string): string {
    "INCREASE_REFCOUNT( " + expr + " )"
  }

  function DecreaseRefcount(expr: string): string {
    "DECREASE_REFCOUNT( " + expr + " )"
  }

  function Temporary(expr: string): string {
    TEMPORARY_OPEN + expr + TEMPORARY_CLOSE
  }

  /** Whether the identifier owns references; only a base identifier can. */
  function GetRefCount(id: Identifier): (n: int)
    ensures n != 0 ==> id.Base?
    ensures id.Base? ==> n == id.refCount
  {
    if id.Base? then id.refCount else 0
  }

  /** The Python-level name a variable identifier stands for. */
  function VariableName(id: Identifier): string
    requires !id.Base?
  {
    match id
    case LocalVariable(name, _) => name
    case LocalLoopVariable(name) => name
    case TempVariable(name) => name
    case ClosureVariable(name, _) => name
  }

  /**
   `getCode`: the C++ expression naming the value. A variable's expression
   ends in its Python name; locals and loop variables share the `_python_var_`
   namespace, temporaries have their own.
   */
  function GetCode(id: Identifier): (r: string)
    ensures id.Base? ==> r == id.code
    ensures !id.Base? ==> |r| > |VariableName(id)| && r[|r| - |VariableName(id)|..] == VariableName(id)
    // each form is its fixed prefix followed directly by the name
    ensures id.LocalLoopVariable? || (id.LocalVariable? && !id.fromContext) ==>
              |r| == |VAR_PREFIX| + |VariableName(id)| && r[..|VAR_PREFIX|] == VAR_PREFIX
    ensures id.LocalVariable? && id.fromContext ==>
              |r| == |CONTEXT_VAR_PREFIX| + |id.varName| && r[..|CONTEXT_VAR_PREFIX|] == CONTEXT_VAR_PREFIX
    ensures id.TempVariable? ==>
              |r| == |TMP_PREFIX| + |id.tempVarName| && r[..|TMP_PREFIX|] == TMP_PREFIX
    ensures id.ClosureVariable? && id.context != "" ==>
              && |r| == |id.context| + |CLOSURE_INFIX| + |id.closureVarName|
              && r[..|id.context|] == id.context
              && r[|id.context|..|id.context| + |CLOSURE_INFIX|] == CLOSURE_INFIX
    ensures id.ClosureVariable? && id.context == "" ==>
              |r| == |CLOSURE_PREFIX| + |id.closureVarName| && r[..|CLOSURE_PREFIX|] == CLOSURE_PREFIX
  {
    match id
    case Base(code, _) => code
    case LocalVariable(name, fromContext) =>
      if !fromContext then VAR_PREFIX + name else CONTEXT_VAR_PREFIX + name
    case LocalLoopVariable(name) => VAR_PREFIX + name
    case TempVariable(name) => TMP_PREFIX + name
    case ClosureVariable(name, context) =>
      if context != "" then context + CLOSURE_INFIX + name else CLOSURE_PREFIX + name
  }

  /** `getCodeObject`: the expression as a `PyObject *`; variables are wrapped and need `.asObject()`. */
  function GetCodeObject(id: Identifier): (r: string)
    ensures id.Base? ==> r == GetCode(id)
    ensures !id.Base? ==> |r| > |AS_OBJECT| && r[..|r| - |AS_OBJECT|] == GetCode(id)
                          && r[|r| - |AS_OBJECT|..] == AS_OBJECT
  {
    if id.Base? then GetCode(id) else GetCode(id) + AS_OBJECT
  }

  /** The result of `getCodeExportRef`: the expression and the identifier's state after the call. */
  datatype Export = Export(text: string, after: Identifier)

  /**
   `getCodeExportRef`: an expression whose reference the consumer owns. An
   identifier holding references hands them over and owns none afterwards;
   one holding none gets a fresh reference taken for the consumer.
   */
  function GetCodeExportRef(id: Identifier): (e: Export)
    ensures GetRefCount(e.after) == 0
    ensures GetCode(e.after) == GetCode(id) && GetCodeObject(e.after) == GetCodeObject(id)
    ensures GetRefCount(id) != 0 ==> e.text == GetCode(id)
    ensures GetRefCount(id) == 0 ==> e == Export(IncreaseRefcount(GetCodeObject(id)), id)
  {
    if GetRefCount(id) != 0 then
      Export(id.code, id.(refCount := 0))
    else
      Export(IncreaseRefcount(GetCodeObject(id)), id)
  }

  /**
   `getCodeTemporaryRef`: an expression usable for the duration of one
   statement. Owned references are released by a `PyObjectTemporary` at the
   end of it; a borrowed value is used as it is.
   */
  function GetCodeTemporaryRef(id: Identifier): (r: string)
    // an owned reference is never used bare, a borrowed one always is
    ensures r == GetCodeObject(id) <==> GetRefCount(id) == 0
    ensures r != GetCode(id) <==> GetRefCount(id) != 0 || !id.Base?
    // the owned code is recoverable from inside the `PyObjectTemporary` wrapper
    ensures GetRefCount(id) != 0 ==>
              && |r| == |TEMPORARY_OPEN| + |GetCode(id)| + |TEMPORARY_CLOSE|
              && r[..|TEMPORARY_OPEN|] == TEMPORARY_OPEN
              && r[|TEMPORARY_OPEN|..|r| - |TEMPORARY_CLOSE|] == GetCode(id)
    // whatever the case, a variable or an owned value is used as an object
    ensures GetRefCount(id) != 0 || !id.Base? ==> |r| >= |AS_OBJECT| && r[|r| - |AS_OBJECT|..] == AS_OBJECT
  {
    if GetRefCount(id) != 0 then
      var t := Temporary(GetCode(id));
      assert t[|t| - |AS_OBJECT|..] == AS_OBJECT;
      t
    else
      GetCodeObject(id)
  }

  /**
   `getCodeDropRef`: an expression that gives up the references the
   identifier owns. The base version reads the `ref_count` attribute, which
   only base identifiers have; closure variables override it and always
   release one reference.
   */
  function GetCodeDropRef(id: Identifier): (r: Result<string, PythonError>)
    ensures r.Failure? <==> id.LocalVariable? || id.LocalLoopVariable? || id.TempVariable?
    ensures r.Failure? ==> r.error == AttributeError("ref_count")
    ensures id.ClosureVariable? ==> r == Success(DecreaseRefcount(GetCodeObject(id)))
    ensures id.Base? ==> r.Success? && (r.value == GetCode(id) <==> id.refCount == 0)
    ensures id.Base? && id.refCount != 0 ==> r.value == DecreaseRefcount(GetCode(id))
  {
    match id
    case Base(code, refCount) =>
      if refCount == 0 then Success(code) else Success(DecreaseRefcount(GetCodeObject(id)))
    case ClosureVariable(_, _) => Success(DecreaseRefcount(GetCodeObject(id)))
    case _ => Failure(AttributeError("ref_count"))
  }

  /** `setRefCount`: asserts the attribute exists, so only base identifiers accept it. */
  function SetRefCount(id: Identifier, refCount: int): (r: Result<Identifier, PythonError>)
    ensures r.Success? <==> id.Base?
    ensures r.Failure? ==> r.error == AssertionError
    ensures r.Success? ==> GetRefCount(r.value) == refCount && GetCode(r.value) == GetCode(id)
    ensures r.Success? ==> r.value == Base(id.code, refCount)
  {
    if id.Base? then Success(id.(refCount := refCount)) else Failure(AssertionError)
  }

  // ---------------------------------------------------------------------
  // Properties
  // ---------------------------------------------------------------------

  /** Every call after the first exports a new reference and leaves the identifier alone. */
  lemma ExportRefHandsOutOnce(id: Identifier)
    ensures var first := GetCodeExportRef(id);
            var second := GetCodeExportRef(first.after);
            && second.text == IncreaseRefcount(GetCodeObject(id))
            && second.after == first.after
  {
  }

  /**
   `n` successive `getCodeExportRef` calls: the identifier hands out its own
   references on at most one call, the first, and only if it owned any; every
   other call exports a freshly increased reference.
   */
  method ExportRefRepeatedly(id: Identifier, n: nat) returns (texts: seq<string>, handedOver: nat)
    ensures |texts| == n
    ensures handedOver <= 1
    ensures handedOver == 1 <==> n > 0 && GetRefCount(id) != 0
    ensures n > 0 && GetRefCount(id) != 0 ==> texts[0] == GetCode(id)
    ensures forall k :: 0 <= k < n && (k > 0 || GetRefCount(id) == 0) ==>
                          texts[k] == IncreaseRefcount(GetCodeObject(id))
  {
    var current := id;
    texts := [];
    handedOver := 0;
    while |texts| < n
      invariant |texts| <= n
      invariant GetCode(current) == GetCode(id) && GetCodeObject(current) == GetCodeObject(id)
      invariant |texts| == 0 ==> current == id
      invariant |texts| > 0 ==> GetRefCount(current) == 0
      invariant handedOver == (if |texts| > 0 && GetRefCount(id) != 0 then 1 else 0)
      invariant |texts| > 0 && GetRefCount(id) != 0 ==> texts[0] == GetCode(id)
      invariant forall k :: 0 <= k < |texts| && (k > 0 || GetRefCount(id) == 0) ==>
                              texts[k] == IncreaseRefcount(GetCodeObject(id))
    {
      if GetRefCount(current) != 0 {
        handedOver := handedOver + 1;
      }
      var e := GetCodeExportRef(current);
      texts := texts + [e.text];
      current := e.after;
    }
  }

  /**
   A base identifier owning references releases them exactly once: dropped
   before an export it is wrapped in `DECREASE_REFCOUNT`; after an export the
   references are gone, so dropping or borrowing it uses the bare code.
   */
  lemma OwnedReferenceReleasedOnce(code: string, refCount: int)
    requires refCount != 0
    ensures GetCodeDropRef(Base(code, refCount)) == Success(DecreaseRefcount(code))
    ensures GetCodeTemporaryRef(Base(code, refCount)) == Temporary(code)
    ensures var after := GetCodeExportRef(Base(code, refCount)).after;
            && GetCodeDropRef(after) == Success(code)
            && GetCodeTemporaryRef(after) == code
  {
  }

  /** The code of a variable identifier determines the variable it names. */
  lemma {:induction false} VariableCodesInjective(a: Identifier, b: Identifier)
    requires !a.Base? && !a.ClosureVariable?
    requires a.LocalVariable? <==> b.LocalVariable?
    requires a.LocalLoopVariable? <==> b.LocalLoopVariable?
    requires a.TempVariable? <==> b.TempVariable?
    requires GetCode(a) == GetCode(b)
    ensures a == b
  {
    var ca, cb := GetCode(a), GetCode(b);
    match a
    case LocalVariable(x, fx) =>
      var y, fy := b.varName, b.fromContext;
      if !fx && !fy {
        assert x == ca[|VAR_PREFIX|..] && y == cb[|VAR_PREFIX|..];
      } else if fx && fy {
        assert x == ca[|CONTEXT_VAR_PREFIX|..] && y == cb[|CONTEXT_VAR_PREFIX|..];
      } else {
        LocalCodeFormsDiffer(if fx then y else x, if fx then x else y);
      }
    case LocalLoopVariable(x) =>
      assert x == ca[|VAR_PREFIX|..] && b.loopVarName == cb[|VAR_PREFIX|..];
    case TempVariable(x) =>
      assert x == ca[|TMP_PREFIX|..] && b.tempVarName == cb[|TMP_PREFIX|..];
  }

  /** The first position at which `_python_var_`, `_python_context->` and `_python_tmp_` differ. */
  const KIND_POSITION: nat := |"_python_"|

  /** A plain local's code never equals a context local's code. */
  lemma LocalCodeFormsDiffer(plain: string, inContext: string)
    ensures GetCode(LocalVariable(plain, false)) != GetCode(LocalVariable(inContext, true))
  {
    assert GetCode(LocalVariable(plain, false))[KIND_POSITION] == VAR_PREFIX[KIND_POSITION];
    assert GetCode(LocalVariable(inContext, true))[KIND_POSITION] == CONTEXT_VAR_PREFIX[KIND_POSITION];
  }

  /** For a fixed context prefix, the code of a closure variable determines its name. */
  lemma {:induction false} ClosureCodesInjective(x: string, y: string, context: string)
    requires GetCode(ClosureVariable(x, context)) == GetCode(ClosureVariable(y, context))
    ensures x == y
  {
    var cx, cy := GetCode(ClosureVariable(x, context)), GetCode(ClosureVariable(y, context));
    if context != "" {
      var k := |context| + |CLOSURE_INFIX|;
      assert x == cx[k..] && y == cy[k..];
    } else {
      assert x == cx[|CLOSURE_PREFIX|..] && y == cy[|CLOSURE_PREFIX|..];
    }
  }

  /** A temporary never has the code of a local or loop variable. */
  lemma TempNeverShadowsLocal(temp: string, local: Identifier)
    requires local.LocalVariable? || local.LocalLoopVariable?
    ensures GetCode(TempVariable(temp)) != GetCode(local)
  {
    assert GetCode(TempVariable(temp))[KIND_POSITION] == TMP_PREFIX[KIND_POSITION];
    assert GetCode(local)[KIND_POSITION] != TMP_PREFIX[KIND_POSITION];
  }
}

=== FILE: subscripts.dfy ===
/**
 The subscript helpers of the compiled-code runtime: `LOOKUP_SUBSCRIPT_CONST`
 (a read whose key is a compile-time constant, with fast paths for exact `list`
 and, in Python 2 builds, exact `str`), `_LOOKUP_SUBSCRIPT` (the generic read),
 `_SET_SUBSCRIPT` (the write) and `_DEL_SUBSCRIPT` (the delete).

 A helper either returns normally, throws the C++ `_PythonException` that
 carries the pending Python exception, or returns NULL with an exception
 pending: in the "unsubscriptable" branches, where the source writes
 `return PyErr_Format(...)` ahead of its `throw`, which is never reached, and
 in the `str` fast path, which hands back whatever `BUILTIN_CHR` returns
 without checking it.
 */
module Subscripts {
  import opened Wrappers
  import opened CPython

  /** How a helper finishes. */
  datatype Outcome<+T> =
    | Ok(value: T)                  // normal return
    | Thrown(error: PyError)        // `throw _PythonException()` with `error` pending
    | ReturnedNull(error: PyError)  // `return NULL` with `error` pending, nothing thrown

  /** A read of `LOOKUP_SUBSCRIPT_CONST`: its outcome and the reference counts after it. */
  datatype Read = Read(outcome: Outcome<Ref>, refs: RefCounts)

  const LIST_INDEX_OUT_OF_RANGE: string := "list index out of range"
  const STRING_INDEX_OUT_OF_RANGE: string := "string index out of range"

  function Unsubscriptable(typeName: string): string {
    "'" + typeName + "' object is unsubscriptable"
  }

  function IndexMustBeInteger(keyTypeName: string): string {
    "sequence index must be integer, not '" + keyTypeName + "'"
  }

  function NoItemAssignment(typeName: string): string {
    "'" + typeName + "' object does not support item assignment"
  }

  // ---------------------------------------------------------------------
  // Index normalisation of the fast paths
  // ---------------------------------------------------------------------

  /**
   The position a (possibly negative) index designates in a container of
   `size` elements, or `None` when the index is out of range. This is the
   normalisation the fast paths mean to perform; see
   `NormalizeIndexAsWritten` for the literal C arithmetic.
   */
  function NormalizeIndex(i: int, size: nat): (r: Option<nat>)
    ensures r.Some? <==> -(size as int) <= i < size
    ensures r.Some? ==> r.value < size
    ensures r.Some? && i >= 0 ==> r.value == i
    ensures r.Some? && i < 0 ==> r.value == i + size
  {
    if i < 0 then
      if i + size < 0 then None else Some(i + size)
    else
      if i >= size then None else Some(i)
  }

  /**
   The fast paths' normalisation exactly as the C code computes it: the
   out-of-range test for a negative index negates it in `Py_ssize_t`, which
   wraps for the most negative value.
   */
  function NormalizeIndexAsWritten(i: Ssize, size: nat): (r: Option<int>)
    // every in-range index is accepted, at the position intended
    ensures NormalizeIndex(i, size).Some? ==> r == Some(NormalizeIndex(i, size).value)
    // nothing past the end is ever produced; only the lower bound can fail
    ensures r.Some? ==> r.value < size
    ensures r.Some? && i >= 0 ==> r.value == i
  {
    if i < 0 then
      if WrapSsize(-(i as int)) > size then None else Some(i + size)
    else
      if i >= size then None else Some(i)
  }

  /** Normalising an already normalised index changes nothing. */
  lemma NormalizeIndexIdempotent(i: int, size: nat)
    requires NormalizeIndex(i, size).Some?
    ensures NormalizeIndex(NormalizeIndex(i, size).value, size) == NormalizeIndex(i, size)
  {
  }

  /** Apart from the most negative `Py_ssize_t`, the C arithmetic is the intended normalisation. */
  lemma {:induction false} NormalizeIndexAsWrittenAgrees(i: Ssize, size: nat)
    requires i != SSIZE_MIN
    ensures NormalizeIndexAsWritten(i, size).Some? <==> NormalizeIndex(i, size).Some?
    ensures NormalizeIndex(i, size).Some? ==>
              NormalizeIndexAsWritten(i, size).value == NormalizeIndex(i, size).value
  {
    if i < 0 {
      assert SSIZE_MIN <= -i <= SSIZE_MAX;
      assert WrapSsize(-(i as int)) == -i;
    }
  }

  /**
   The most negative `Py_ssize_t` passes the C range check of any container
   whose size fits in `Py_ssize_t`, and the position then read is negative.
   */
  lemma {:induction false} NormalizeIndexAsWrittenEscapes(size: nat)
    requires size <= SSIZE_MAX
    ensures NormalizeIndexAsWritten(SSIZE_MIN, size) == Some(SSIZE_MIN + size)
    ensures SSIZE_MIN + size < 0
    ensures NormalizeIndex(SSIZE_MIN, size).None?
  {
    assert -SSIZE_MIN - SSIZE_MIN == SSIZE_MODULUS;
    assert WrapSsize(-SSIZE_MIN) == SSIZE_MIN;
  }

  // ---------------------------------------------------------------------
  // Error translation
  // ---------------------------------------------------------------------

  /**
   The check after every collaborator call that returns an object: NULL is
   turned into a throw of the exception the collaborator left pending, and a
   real object is passed on untouched.
   */
  function ThrowIfNull(result: ObjResult): (r: Outcome<Ref>)
    ensures r.Ok? <==> result.Returned?
    ensures result.Returned? ==> r.value == result.obj
    ensures result.Null? ==> r == Thrown(result.error)
    ensures !r.ReturnedNull?
  {
    match result
    case Returned(obj) => Ok(obj)
    case Null(error) => Thrown(error)
  }

  /** The check after a call that returns an `int` status: -1 throws, anything else returns. */
  function ThrowIfMinusOne(status: Status): (r: Outcome<()>)
    ensures r.Thrown? <==> status.code == -1
    ensures r.Thrown? ==> Some(r.error) == status.pending
    ensures !r.ReturnedNull?
  {
    if status.code == -1 then Thrown(status.pending.value) else Ok(())
  }

  /**
   A collaborator's result handed straight back to the helper's caller, as the
   `str` fast path does with `BUILTIN_CHR`: a NULL stays a NULL return and
   nothing is thrown.
   */
  function PassUnchecked(result: ObjResult): (r: Outcome<Ref>)
    ensures r.Ok? <==> result.Returned?
    ensures result.Returned? ==> r.value == result.obj
    ensures result.Null? ==> r == ReturnedNull(result.error)
    ensures !r.Thrown?
  {
    match result
    case Returned(obj) => Ok(obj)
    case Null(error) => ReturnedNull(error)
  }

  // ---------------------------------------------------------------------
  // LOOKUP_SUBSCRIPT_CONST
  // ---------------------------------------------------------------------

  /** Whether the constant-key read is served without a capability-table call. */
  predicate TakesFastPath(pythonVersion: nat, source: Object) {
    && source.typ.hasMpSubscript
    && (source.exact.ExactList? || (pythonVersion < 300 && source.exact.ExactStr?))
  }

  /** Whether the `str` fast path reads a character for which `BUILTIN_CHR` returns NULL. */
  predicate StrFastPathChrFails(rt: Runtime, pythonVersion: nat, source: Object, intSubscript: Ssize) {
    && TakesFastPath(pythonVersion, source)
    && source.exact.ExactStr?
    && var bytes := source.exact.bytes;
       && -|bytes| <= intSubscript < |bytes|
       && var pos := if intSubscript >= 0 then intSubscript else intSubscript + |bytes|;
          rt.builtinChr(bytes[pos]).Null?
  }

  /**
   `LOOKUP_SUBSCRIPT_CONST(source, constSubscript, intSubscript)`: `intSubscript`
   is the value of the constant key when that key is an integer; the key object
   itself is kept for types whose subscription may mean something else.
   */
  function LookupSubscriptConst(rt: Runtime, pythonVersion: nat, source: Object,
                                constSubscript: Object, intSubscript: Ssize,
                                rc: RefCounts): (r: Read)
    // only the list fast path touches reference counts, by one on the element read
    ensures !(TakesFastPath(pythonVersion, source) && source.exact.ExactList? && r.outcome.Ok?)
            ==> r.refs == rc
    ensures source.typ.hasMpSubscript && source.exact.ExactList? ==>
              var items := source.exact.items;
              if -|items| <= intSubscript < |items| then
                var pos := if intSubscript >= 0 then intSubscript else intSubscript + |items|;
                && 0 <= pos < |items|
                && r.outcome == Ok(items[pos])
                && RefCount(r.refs, items[pos]) == RefCount(rc, items[pos]) + 1
                && (forall o :: o != items[pos] ==> RefCount(r.refs, o) == RefCount(rc, o))
              else
                r.outcome == Thrown(PyError(IndexError, LIST_INDEX_OUT_OF_RANGE))
    ensures TakesFastPath(pythonVersion, source) && source.exact.ExactStr? ==>
              var bytes := source.exact.bytes;
              if -|bytes| <= intSubscript < |bytes| then
                var pos := if intSubscript >= 0 then intSubscript else intSubscript + |bytes|;
                && 0 <= pos < |bytes|
                && r.outcome == PassUnchecked(rt.builtinChr(bytes[pos]))
              else
                r.outcome == Thrown(PyError(IndexError, STRING_INDEX_OUT_OF_RANGE))
    ensures source.typ.hasMpSubscript && !TakesFastPath(pythonVersion, source) ==>
              r.outcome == ThrowIfNull(rt.mpSubscript(source, constSubscript))
    ensures !source.typ.hasMpSubscript && source.typ.hasSequence ==>
              r.outcome == ThrowIfNull(rt.sequenceGetItem(source, intSubscript))
    ensures r.outcome.ReturnedNull? <==>
              || (!source.typ.hasMpSubscript && !source.typ.hasSequence)
              || StrFastPathChrFails(rt, pythonVersion, source, intSubscript)
    ensures !source.typ.hasMpSubscript && !source.typ.hasSequence ==>
              r.outcome == ReturnedNull(PyError(TypeError, Unsubscriptable(source.typ.name)))
  {
    if source.typ.hasMpSubscript then
      match source.exact
      case ExactList(items) =>
        (match NormalizeIndex(intSubscript, |items|)
         case None => Read(Thrown(PyError(IndexError, LIST_INDEX_OUT_OF_RANGE)), rc)
         case Some(pos) => Read(Ok(items[pos]), IncRef(rc, items[pos])))
      case ExactStr(bytes) =>
        if pythonVersion < 300 then
          (match NormalizeIndex(intSubscript, |bytes|)
           case None => Read(Thrown(PyError(IndexError, STRING_INDEX_OUT_OF_RANGE)), rc)
           case Some(pos) => Read(PassUnchecked(rt.builtinChr(bytes[pos])), rc))
        else
          Read(ThrowIfNull(rt.mpSubscript(source, constSubscript)), rc)
      case NotExact =>
        Read(ThrowIfNull(rt.mpSubscript(source, constSubscript)), rc)
    else if source.typ.hasSequence then
      Read(ThrowIfNull(rt.sequenceGetItem(source, intSubscript)), rc)
    else
      Read(ReturnedNull(PyError(TypeError, Unsubscriptable(source.typ.name))), rc)
  }

  // ---------------------------------------------------------------------
  // _LOOKUP_SUBSCRIPT
  // ---------------------------------------------------------------------

  /** `_LOOKUP_SUBSCRIPT(source, subscript)`: the generic read. */
  function LookupSubscript(rt: Runtime, source: Object, subscript: Object): (r: Outcome<Ref>)
    ensures source.typ.hasMpSubscript ==> r == ThrowIfNull(rt.mpSubscript(source, subscript))
    ensures !source.typ.hasMpSubscript && source.typ.hasSequence && subscript.typ.hasIndex ==>
              r == match rt.convertToIndex(subscript)
                   case Converted(i) => ThrowIfNull(rt.sequenceGetItem(source, i))
                   case ConversionRaised(e) => Thrown(e)
    ensures !source.typ.hasMpSubscript && source.typ.hasSequence && !subscript.typ.hasIndex
            && source.typ.hasSqItem ==>
              r == Thrown(PyError(TypeError, IndexMustBeInteger(subscript.typ.name)))
    ensures r.ReturnedNull? <==>
              && !source.typ.hasMpSubscript
              && !(source.typ.hasSequence && (subscript.typ.hasIndex || source.typ.hasSqItem))
    ensures r.ReturnedNull? ==> r.error == PyError(TypeError, Unsubscriptable(source.typ.name))
  {
    if source.typ.hasMpSubscript then
      ThrowIfNull(rt.mpSubscript(source, subscript))
    else if source.typ.hasSequence then
      if subscript.typ.hasIndex then
        match rt.convertToIndex(subscript)
        case Converted(i) => ThrowIfNull(rt.sequenceGetItem(source, i))
        case ConversionRaised(e) => Thrown(e)
      else if source.typ.hasSqItem then
        Thrown(PyError(TypeError, IndexMustBeInteger(subscript.typ.name)))
      else
        ReturnedNull(PyError(TypeError, Unsubscriptable(source.typ.name)))
    else
      ReturnedNull(PyError(TypeError, Unsubscriptable(source.typ.name)))
  }

  // ---------------------------------------------------------------------
  // _SET_SUBSCRIPT
  // ---------------------------------------------------------------------

  /** `_SET_SUBSCRIPT(value, target, subscript)`: `target[subscript] = value`. */
  function SetSubscript(rt: Runtime, value: Object, target: Object, subscript: Object): (r: Outcome<()>)
    ensures !r.ReturnedNull?
    ensures target.typ.hasMpAssSubscript ==>
              (r.Thrown? <==> rt.mpAssSubscript(target, subscript, value).code == -1)
    ensures target.typ.hasMpAssSubscript && r.Thrown? ==>
              Some(r.error) == rt.mpAssSubscript(target, subscript, value).pending
    ensures !target.typ.hasMpAssSubscript && target.typ.hasSequence && subscript.typ.hasIndex ==>
              var k := rt.numberAsSsize(subscript, IndexError);
              if k.value == -1 && k.pending.Some? then r == Thrown(k.pending.value)
              else r == match rt.sequenceSetItem(target, k.value, value)
                        case Some(e) => Thrown(e)
                        case None => Ok(())
    ensures !target.typ.hasMpAssSubscript && target.typ.hasSequence && !subscript.typ.hasIndex
            && target.typ.hasSqAssItem ==>
              r == Thrown(PyError(TypeError, IndexMustBeInteger(subscript.typ.name)))
    ensures !target.typ.hasMpAssSubscript
            && !(target.typ.hasSequence && (subscript.typ.hasIndex || target.typ.hasSqAssItem)) ==>
              r == Thrown(PyError(TypeError, NoItemAssignment(target.typ.name)))
  {
    if target.typ.hasMpAssSubscript then
      ThrowIfMinusOne(rt.mpAssSubscript(target, subscript, value))
    else if target.typ.hasSequence then
      if subscript.typ.hasIndex then
        var keyValue := rt.numberAsSsize(subscript, IndexError);
        if keyValue.value == -1 && keyValue.pending.Some? then
          Thrown(keyValue.pending.value)
        else
          match rt.sequenceSetItem(target, keyValue.value, value)
          case Some(e) => Thrown(e)
          case None => Ok(())
      else if target.typ.hasSqAssItem then
        Thrown(PyError(TypeError, IndexMustBeInteger(subscript.typ.name)))
      else
        Thrown(PyError(TypeError, NoItemAssignment(target.typ.name)))
    else
      Thrown(PyError(TypeError, NoItemAssignment(target.typ.name)))
  }

  // ---------------------------------------------------------------------
  // _DEL_SUBSCRIPT
  // ---------------------------------------------------------------------

  /** `_DEL_SUBSCRIPT(target, subscript)`: `del target[subscript]`, whatever the target's slots. */
  function DelSubscript(rt: Runtime, target: Object, subscript: Object): (r: Outcome<()>)
    ensures r.Thrown? <==> rt.objectDelItem(target, subscript).code == -1
    ensures r.Thrown? ==> Some(r.error) == rt.objectDelItem(target, subscript).pending
    ensures !r.ReturnedNull?
  {
    ThrowIfMinusOne(rt.objectDelItem(target, subscript))
  }
  // ---------------------------------------------------------------------
  // Properties relating the entry points
  // ---------------------------------------------------------------------

  /**
   Outside the fast paths the constant-key read is the generic read: a mapping
   type sees the key object, a type with neither slot gets the same NULL
   return, and a sequence-only type agrees whenever the caller's integer is
   what the key converts to.
   */
  lemma ConstLookupAgreesWithGeneric(rt: Runtime, pythonVersion: nat, source: Object,
                                     key: Object, intKey: Ssize, rc: RefCounts)
    requires !TakesFastPath(pythonVersion, source)
    requires !source.typ.hasMpSubscript && source.typ.hasSequence ==>
               key.typ.hasIndex && rt.convertToIndex(key) == Converted(intKey)
    ensures LookupSubscriptConst(rt, pythonVersion, source, key, intKey, rc)
            == Read(LookupSubscript(rt, source, key), rc)
  {
  }

  /**
   Which key a non-fast-path constant read passes on: a mapping type only
   ever sees the key object, a sequence-only type only the integer.
   */
  lemma ConstLookupKeyChoice(rt: Runtime, pythonVersion: nat, source: Object,
                             key1: Object, key2: Object, int1: Ssize, int2: Ssize, rc: RefCounts)
    ensures source.typ.hasMpSubscript && !TakesFastPath(pythonVersion, source) ==>
              LookupSubscriptConst(rt, pythonVersion, source, key1, int1, rc)
              == LookupSubscriptConst(rt, pythonVersion, source, key1, int2, rc)
    ensures !source.typ.hasMpSubscript ==>
              LookupSubscriptConst(rt, pythonVersion, source, key1, int1, rc)
              == LookupSubscriptConst(rt, pythonVersion, source, key2, int1, rc)
  {
  }

  /** The list fast path consults neither the capability table nor any other runtime entry point. */
  lemma ListFastPathBypassesRuntime(rt1: Runtime, rt2: Runtime, pythonVersion: nat, source: Object,
                                    key: Object, intKey: Ssize, rc: RefCounts)
    requires source.typ.hasMpSubscript && source.exact.ExactList?
    ensures LookupSubscriptConst(rt1, pythonVersion, source, key, intKey, rc)
            == LookupSubscriptConst(rt2, pythonVersion, source, key, intKey, rc)
  {
  }

  /**
   For a sequence-only type with both item slots, a non-index key is refused
   by the read and by the write with the same `TypeError`.
   */
  lemma NonIndexKeyRefusedAlike(rt: Runtime, container: Object, key: Object, value: Object)
    requires !container.typ.hasMpSubscript && !container.typ.hasMpAssSubscript
    requires container.typ.hasSequence && container.typ.hasSqItem && container.typ.hasSqAssItem
    requires !key.typ.hasIndex
    ensures LookupSubscript(rt, container, key).Thrown?
    ensures SetSubscript(rt, value, container, key).Thrown?
    ensures LookupSubscript(rt, container, key).error == SetSubscript(rt, value, container, key).error
                                                     == PyError(TypeError, IndexMustBeInteger(key.typ.name))
  {
  }

  /**
   In a Python 3.3 build (`PYTHON_VERSION` 330), the list `[10, 20, 30]` read
   at -1 yields 30; read at 3 raises `IndexError`.
   */
  lemma ListScenario(rt: Runtime, listType: TypeObject, key: Object, rc: RefCounts)
    requires listType.hasMpSubscript
    ensures var s := Object(1, listType, ExactList([10, 20, 30]));
            && LookupSubscriptConst(rt, 330, s, key, -1, rc).outcome == Ok(30)
            && LookupSubscriptConst(rt, 330, s, key, 3, rc)
               == Read(Thrown(PyError(IndexError, LIST_INDEX_OUT_OF_RANGE)), rc)
  {
  }
}

=== FILE: wrappers.dfy ===
/** Failure-carrying datatypes shared by the modules of this project. */
module Wrappers {

  /** An optional value: `None` plays the role of a missing result. */
  datatype Option<+T> = None | Some(value: T)

  /** A value or the exception a Python-level operation raises instead. */
  datatype Result<+T, +E> = Success(value: T) | Failure(error: E)
}
